=== FILE: README.md ===
# A Dafny model of a minimal Layer-1 node: vote tallying, key-value execution, node orchestration

This project models, as pure functions over immutable data, the three
modules of the blockchain simulator that decide what a node stores and
finalises:

- **Consensus** (`src/consensus.py`) covers block headers and votes, and
  `ConsensusState`. `ConsensusState` files prevotes and precommits per
  height. It counts the precommits of a height per block hash, in the
  insertion order of a Python dict. It records a hash once its count
  reaches `len(validator_set) // 2 + 1`, and raises a safety violation when
  a different truthy hash is already recorded there.
- **Execution** (`src/execution.py`) covers transactions, the key-value
  `AppState`, its commitment and `build_block`. A transaction is a guarded
  overwrite of one key in the sender's own `sender/` namespace.
- **Node** (`src/node.py`) covers `BlockchainNode`, which owns one consensus
  state, one application state and a block store. It admits transactions to
  a mempool, proposes blocks, validates received blocks, deduplicates votes
  by id, and replays a finalised block's body on its live data.

Signing, verification, hashing and public-key derivation are not modelled
as algorithms. They are the function-valued fields of an `Oracle` value
that every operation takes as a parameter, so every result holds for every
choice of crypto functions. The only fact assumed about them is the one a
correct signature scheme gives. `Crypto.SignaturesVerify(o, k)` states that
whatever key `k` signs verifies under `k`'s public key. It is a
precondition of the lemmas that need it, never an axiom.

A Python exception is modelled as `Outcome.Raised`. Such an outcome carries
the object as the exception leaves it: a precommit filed before
`try_finalize` raises stays filed. Python truthiness of a looked-up hash
(`None` and `""` are false) is `Base.Truthy`.

The code has no rounds, timeouts, voting power, two-thirds quorum, nonces
or balances. It finalises on a head-count majority and executes key-value
writes.

## Model

| member | source | states |
|---|---|---|
| Consensus.NewConsensusState | src/consensus.py:44-51 | a fresh consensus state keeps the validator set and chain id it is given and has no votes and no finalised heights |
| Consensus.HeaderEncodingIgnoresOnlySignature | src/consensus.py:15-25 | two headers encode alike exactly when they agree on every field but the signature, and such headers have the same hash |
| Consensus.VoteEncodingIgnoresOnlySignature | src/consensus.py:36-42 | two votes encode alike exactly when they agree on every field but the signature |
| Consensus.FileVote | src/consensus.py:67-72 | filing a vote appends it to the list of its own height only; every other height's list is unchanged |
| Consensus.Majority | src/consensus.py:91 | the threshold is a strict majority of the validator set by head count: twice it exceeds the set size, and one less is not a majority |
| Consensus.TallyUpTo | src/consensus.py:85-89 | after any prefix of the counting loop, the tally's keys are exactly its insertion order, every hash seen is a key, and every count is positive |
| Consensus.TallyCounts | src/consensus.py:85-89 | each tally entry equals the number of occurrences of its hash so far, and a hash absent from the tally has not occurred |
| Consensus.TallyHashes | src/consensus.py:85-89 | the finished tally has exactly the voted hashes as keys, each with its multiplicity among the precommits |
| Consensus.FirstMajority | src/consensus.py:93-95 | the dict search returns a key whose count reaches the threshold, or none when no key does |
| Consensus.TallyPicksEarliest | src/consensus.py:85-102 | searching the tally's insertion order finds exactly the earliest-filed hash whose count reaches the threshold |
| Consensus.MajorityHash | src/consensus.py:85-102 | the hash settled on is the earliest-filed one with a majority of the stored precommits; with no result, no hash has a majority |
| Consensus.TryFinalize | src/consensus.py:77-108 | it never changes votes or other heights; a raise leaves the state alone with a fault for that height; a returned hash is the recorded one; a truthy entry is never overwritten |
| Consensus.TryFinalizeWithoutMajority | src/consensus.py:78-108 | with no majority hash, whether there are no precommits (lines 78-83) or the tally loop finds none (lines 104-108), it changes nothing and returns the existing entry or none |
| Consensus.TryFinalizeWithMajority | src/consensus.py:94-102 | with a majority hash, it either raises or records and returns a hash whose precommit count reaches the threshold; when it does not raise, the hash is that of the earliest filed precommit whose hash has a majority, that is, the first tally key in insertion order to reach the threshold |
| Consensus.TryFinalizeRecordsOnlyMajority | src/consensus.py:94-101 | the only state change it ever makes is recording, at the height, a hash that has a majority there |
| Consensus.TryFinalizeRaisesIff | src/consensus.py:96-99 | it raises exactly when a truthy hash is already recorded and the earliest-filed majority hash differs from it |
| Consensus.LaterConflictingMajorityNotReported | src/consensus.py:94-102 | a second hash that also has a majority but was filed after the recorded one does not raise: the recorded hash is returned |
| Consensus.HandleVote | src/consensus.py:53-75 | a vote from a non-validator or with a bad VOTE signature is refused with nothing changed, and only then; an admissible vote is accepted unless finalisation raises; an accepted prevote is filed and changes nothing else; an accepted precommit is filed and then finalisation is attempted; any other phase is accepted and not filed; only a precommit can raise; truthy entries persist |
| Consensus.HandleVotes | src/consensus.py:53-75 | over a run of votes that raises nothing, the number accepted is the number that pass the admission checks, and the validator set and chain id never change |
| Consensus.FinalizedEntryPersists | src/consensus.py:96-101 | once a truthy hash is recorded at a height, no later sequence of votes changes it |
| Execution.ApplyTx | src/execution.py:30-48 | success holds exactly when the key lies in the sender's namespace and the TX signature verifies; a failure leaves the data unchanged; a success sets the key to the value; no other key ever changes |
| Execution.TxEncodingIgnoresOnlySignature | src/execution.py:15-20 | two transactions encode alike exactly when they agree on every field but the signature |
| Execution.ApplyAll | src/execution.py:56-60 | replaying a list never removes a key from the data |
| Execution.ApplyAllOverlaysWrites | src/execution.py:56-60 | replaying a list overlays, on the starting data, the value of the last valid write to each key |
| Execution.ValidTransactionKeyWritten | src/execution.py:56-60 | the key of every valid transaction of the list is written by the replay |
| Execution.WrittenKeysComeFromValidTransactions | src/execution.py:56-60 | every key the replay writes is named by a valid transaction of the list, and takes the value of the last such transaction: no later transaction naming that key is valid |
| Execution.ReplayKeepsUnnamedKeys | src/node.py:210-212 | a key that no transaction of a finalised body names keeps its value through the replay |
| Execution.SameWritesSameCommitment | src/execution.py:50-52 | two lists with the same last-write map lead, from the same data, to the same data and the same commitment, whatever the order of their writes |
| Execution.ApplyAllIdempotent | src/execution.py:30-48 | replaying the same list twice gives the same data as replaying it once, because validity does not depend on the data |
| Execution.WritesToDistinctKeysCommute | src/execution.py:47-52 | writes to different keys commute, so the resulting data and commitments are equal in either order |
| Execution.LaterWriteOverwrites | src/execution.py:47 | a later valid write to the same key determines its value, whatever the earlier write was |
| Execution.BuildBlock | src/execution.py:54-78 | the header is one above the parent, points at the parent's hash, names the proposer's public key, commits to the writes of the list on an empty state, and is signed by the proposer in the HEADER context |
| Execution.BuiltHeaderVerifies | src/execution.py:71-76 | a header built by a key whose signatures verify carries a signature that verifies under its own proposer field |
| Execution.StateHashDependsOnlyOnTransactions | src/execution.py:56-62 | the state hash depends on the transactions alone, not on the parent or the builder |
| Node.Init | src/node.py:9-46 | the node keeps its node id, key and chain id; its genesis is the genesis header; that header is stored with an empty body and finalised at height 0; no votes, no pending transactions, empty data, height 0; the new node is consistent |
| Node.GenesisHeader | src/node.py:31-37 | the genesis header has height 0, a parent hash of 64 zero characters, the commitment of the empty state, proposer `genesis` and an empty signature |
| Node.ReceiveTransaction | src/node.py:52-71 | the transaction is queued exactly when it is valid; the live data never changes |
| Node.ReceiveTransactionKeepsMempoolValid | src/node.py:52-71 | admission keeps every queued transaction valid |
| Node.ProposeBlock | src/node.py:73-97 | with an unknown parent, it returns none with nothing changed; otherwise the header is built over the whole mempool and signed by the node in the HEADER context, stored with the mempool as body, and the mempool is emptied |
| Node.ProposalExtendsRequestedParent | src/node.py:78-81 | on a consistent node, the proposal points at the parent it was asked to extend |
| Node.ProposeBlockKeepsConsistent | src/node.py:83-85 | proposing keeps every stored header under its own hash with a body |
| Node.ReceiveBlock | src/node.py:99-152 | a known hash is acknowledged with nothing changed; an unknown parent, a bad HEADER signature or a state-hash mismatch is refused with nothing changed; a block passing all checks is stored with its body, and the node changes in no other case |
| Node.ReceiveBlockKeepsConsistent | src/node.py:143-144 | receiving a block keeps every stored header under its own hash with a body |
| Node.HonestProposalAccepted | src/node.py:99-152 | a block proposed by a node whose signatures verify is stored by any consistent peer on the same chain that holds its parent |
| Node.CreateVote | src/node.py:154-175 | the vote names this node's public key and the given hash, height and phase, and is signed in the VOTE context |
| Node.CreatedVoteAdmissible | src/node.py:154-175 | a vote created by a validator whose signatures verify passes both admission checks of any consistent node on the same chain |
| Node.DecimalString | src/node.py:179 | the height is rendered as a minus sign exactly for a negative height, followed by decimal digits |
| Node.DigitsRoundTrip | src/node.py:179 | reading the digits of a non-negative number back, most significant first, gives the number |
| Node.DecimalStringRoundTrip | src/node.py:179 | reading the rendering of any height back (an optional minus sign, then digits) gives the height, so the id carries exactly the decimal value `str(height)` gives |
| Node.DecimalStringInjective | src/node.py:179 | different heights render differently |
| Node.VoteIdIgnoresSignature | src/node.py:179 | a vote id does not depend on the signature, so a resent vote with another signature is a duplicate |
| Node.VoteIdSeparatesBlockHashes | src/node.py:179 | two votes differing only in block hash have different ids, so neither is taken for a duplicate of the other |
| Node.FinalizeBlock | src/node.py:205-221 | an unknown block changes nothing; otherwise the data becomes the old data overlaid with the body's writes, only data and height change, and the height never decreases |
| Node.BodyOf | src/node.py:210 | the body stored under a hash, or the empty list when there is none |
| Node.RefinalizeKeepsState | src/node.py:193-195 | finalising the same block twice in a row leaves the data as one finalisation left it |
| Node.FinalizeReflectsBody | src/node.py:205-213 | after finalising a block, replaying its body again would change nothing |
| Node.ReceiveVote | src/node.py:177-203 | a seen id or an inadmissible vote is ignored with nothing changed; otherwise the result is that of the consensus call: the same return value, and a raise only for a precommit, carrying the safety violation at the vote's height that `try_finalize` raised; an admissible vote is accepted unless it raises; the id is recorded only when consensus accepts; an accepted vote naming the truthy hash now finalised at its height, for a stored block, overlays that body's writes on the data and raises the height to the vote's; in every other case data and height stay; a raise leaves everything but the consensus state alone; block store, mempool, keys and genesis never change |
| Node.ReceiveVotes | src/node.py:177-203 | over a run of vote deliveries that raises nothing, the number of accepted votes is the number of admissible votes whose id was not seen before (ids accepted earlier in the run count as seen), and the seen ids grow by exactly the ids of the admissible votes |
| Node.ReceiveVotesKeepFinalizedAndHeight | src/node.py:177-221 | through any run of vote deliveries, a truthy finalised hash at a height stays unchanged and the node's height never decreases |
| Node.ReceiveVoteKeepsReflectedState | src/node.py:193-195 | a vote for a block whose body the data already reflects leaves the data unchanged |
| Node.ReceiveVoteKeepsConsistent | src/node.py:177-203 | receiving a vote keeps the node consistent |
| Node.LateVoteRevertsLaterBlock | src/node.py:193-195 | on a node that, from its genesis block, finalised heights 1 and 2 on the validator's own precommits (filed, and their ids seen), a late prevote for the height-1 block puts the height-2 write back to its height-1 value while the height stays 2 |
| Node.ReceiveVoteGuarded | src/node.py:192-195 | a vote at a height that already had a truthy finalised hash before it arrived gives exactly the unguarded result (return value, consensus state, seen ids, blocks, bodies, mempool, raise) except that the data and the height are left as they were; at any other height it is the unguarded receive, so a first finalisation is applied whatever its height |
| Node.GuardedLateVoteKeepsState | src/node.py:193-195 | with the guard, the same late vote is accepted and the data keeps its height-2 value |
| Node.GuardedFirstFinalizationApplies | src/node.py:192-195 | with the guard, a first precommit that finalises height 1 below the current height 2 still applies its block, exactly as the unguarded receive does |
| Node.SortedHeights | src/node.py:224 | the heights come out strictly ascending, each finalised height exactly once |
| Node.GetFinalizedBlockHashes | src/node.py:223-225 | one hash per finalised height, every finalised hash listed, in ascending order of the heights they are finalised at |

## Left out

- src/network.py (the lossy, delaying and duplicating network simulator) is not part of this model. Its decisions draw from a global pseudo-random stream and compare floating-point times.
- src/crypto.py is not modelled. Ed25519 signing, SHA-256 hashing and canonical JSON encoding are the `Oracle` parameter, and encodings are the `Payload` datatype, not bytes.
- The logger, every `_log` call, and the `print` of a rejected transaction in `build_block` are output only and have no effect on state.
- `get_state_summary` (src/node.py:227 onward) is a read-only report and is left out.
- Rounds, timeouts, proposer rotation, voting power, a two-thirds quorum, nonces and balances are described for the project but are not in the code, so they are not modelled.
- `receive_block` does not check that a header's height is one above its parent's. The model keeps that behaviour: `Node.ReceiveBlock` stores any block that passes the three checks, whatever its height.
- `Node.ReceiveVoteGuarded` never applies a block whose finalisation happened before its body was stored. The source would apply it on a later vote for it. The corrected member gives this up to avoid replaying old blocks.
- `Node.ReceiveVoteKeepsReflectedState` and `Node.RefinalizeKeepsState` state the idempotence of a repeated finalisation only when nothing else was applied in between. In general a repeated finalisation is not harmless (see Findings).
- `Consensus.FinalizedEntryPersists` and the persistence clause of `Consensus.HandleVote` hold for truthy entries only. An entry equal to the empty string is falsy in the source and can be overwritten by a later majority.
- Python's in-place mutation and object aliasing are modelled as returning the updated value. Headers and body lists are stored as values. So the copy of the body in `propose_block` and the alias in `receive_block` behave alike. A caller that mutates the header object `propose_block` returns (the end-to-end tests do, at tests/test_e2e.py:285 and 299) would also change the proposer's stored header and break "stored under its own hash" (`Node.Consistent`); the model has no such sharing.

## Findings

| source | as written | input that shows it | evidently intended | confidence | as-written member | corrected member |
|---|---|---|---|---|---|---|
| src/node.py:193-195 | any later accepted vote, a prevote included, whose hash equals the truthy hash finalised at its own height re-runs `_finalize_block` for that height, even when the node has since finalised higher blocks | a node that finalised block `b1` at height 1 (sets `v/k` to `"1"`) and then `b2` at height 2 (sets `v/k` to `"2"`) receives a new prevote for `b1` at height 1: afterwards `v/k` is `"1"` and the height is still 2 | a block is finalised on the vote that caused its finalisation, as the comment at line 192 says, so a later vote for an already finalised height does not replay it over newer blocks; a height finalised for the first time is still applied, whatever its height | medium; not executed | Node.LateVoteRevertsLaterBlock | Node.ReceiveVoteGuarded |

=== FILE: base.dfy ===
/** Small shared vocabulary: the optional value returned by dictionary
    look-ups, and Python's truthiness of an optional string. */
module Base {

  /** The value of `d.get(k)`: `None` when the key is absent. */
  datatype Option<+T> = None | Some(value: T)

  /** `m.get(k)` on a map. */
  function Get<K, V>(m: map<K, V>, k: K): (r: Option<V>)
    ensures r.Some? <==> k in m
    ensures r.Some? ==> r.value == m[k]
  {
    if k in m then Some(m[k]) else None
  }

  /** Python truthiness of an optional string: `None` and `""` are false. */
  predicate Truthy(o: Option<string>)
  {
    o.Some? && o.value != ""
  }
}

=== FILE: consensus.dfy ===
/** Vote tallying and finality of one node: `BlockHeader`, `Vote` and
    `ConsensusState` of src/consensus.py.

    There are no rounds, timeouts or voting power here: a node files every
    accepted vote by phase and height, counts the stored precommits of a
    height per block hash, and finalises a hash once its count reaches
    `|validators| div 2 + 1`. Repeated precommits are NOT deduplicated at this
    layer (the node does that, module Node). */
module Consensus {
  import opened Base
  import opened Crypto

  /** A block header; the body (a transaction list) is stored beside it by
      the node. */
  datatype BlockHeader = BlockHeader(
    parentHash: string,
    height: int,
    stateHash: string,
    proposer: string,
    signature: string)

  /** `BlockHeader.encode`: every field except the signature. */
  function EncodeHeader(h: BlockHeader): Payload
  {
    HeaderPayload(h.parentHash, h.height, h.stateHash, h.proposer)
  }

  /** `BlockHeader.hash`: the hash of the encoding, so the signature does not
      take part in a header's identity. */
  function HeaderHash(o: Oracle, h: BlockHeader): string
  {
    o.hash(EncodeHeader(h))
  }

  /** The encoding covers every field but the signature: two headers encode
      (and so hash) alike exactly when they agree on everything else. */
  lemma HeaderEncodingIgnoresOnlySignature(o: Oracle, h1: BlockHeader, h2: BlockHeader)
    ensures EncodeHeader(h1) == EncodeHeader(h2) <==> h1.(signature := "") == h2.(signature := "")
    ensures h1.(signature := "") == h2.(signature := "") ==> HeaderHash(o, h1) == HeaderHash(o, h2)
  {
  }

  /** A prevote or precommit; `phase` is free text in the repository, and a
      vote whose phase is neither is accepted but never filed. */
  datatype Vote = Vote(
    validator: string,
    height: int,
    blockHash: string,
    phase: string,
    signature: string)

  /** `Vote.encode`: every field except the signature. */
  function EncodeVote(v: Vote): Payload
  {
    VotePayload(v.validator, v.height, v.blockHash, v.phase)
  }

  /** Two votes encode alike exactly when they agree on everything but the
      signature. */
  lemma VoteEncodingIgnoresOnlySignature(v1: Vote, v2: Vote)
    ensures EncodeVote(v1) == EncodeVote(v2) <==> v1.(signature := "") == v2.(signature := "")
  {
  }

  const Prevote: string := "prevote"
  const Precommit: string := "precommit"

  /** `ConsensusState`: the validator set and chain id it was built with,
      the filed votes per height, and the finalised hash per height. */
  datatype ConsensusState = ConsensusState(
    validatorSet: set<string>,
    chainId: string,
    prevotes: map<int, seq<Vote>>,
    precommits: map<int, seq<Vote>>,
    finalized: map<int, string>)

  /** The exception `try_finalize` raises: "SAFETY VIOLATION: conflicting
      block at height h". */
  datatype Fault = SafetyViolation(height: int)

  /** A Python call that either returns `value` or raises `fault`; in both
      cases `state` is the object as the call left it (an exception does not
      undo the mutations made before it). */
  datatype Outcome<+T, +S> = Done(value: T, state: S) | Raised(fault: Fault, state: S)

  /** `ConsensusState.__init__`. */
  function NewConsensusState(validatorSet: set<string>, chainId: string): (cs: ConsensusState)
    ensures cs.validatorSet == validatorSet && cs.chainId == chainId
    ensures cs.prevotes == map[] && cs.precommits == map[] && cs.finalized == map[]
  {
    ConsensusState(validatorSet, chainId, map[], map[], map[])
  }

  /** `m.get(h, [])` */
  function VotesAt(m: map<int, seq<Vote>>, h: int): seq<Vote>
  {
    if h in m then m[h] else []
  }

  /** `m.setdefault(h, []).append(v)`: only the list of height `h` grows. */
  function FileVote(m: map<int, seq<Vote>>, h: int, v: Vote): (r: map<int, seq<Vote>>)
    ensures VotesAt(r, h) == VotesAt(m, h) + [v]
    ensures r - {h} == m - {h}
    ensures r.Keys == m.Keys + {h}
  {
    m[h := VotesAt(m, h) + [v]]
  }

  /** The finality threshold: a strict majority of the validator set by
      head count, `len(validator_set) // 2 + 1`. */
  function Majority(validatorSet: set<string>): (q: int)
    ensures q >= 1 && 2 * q > |validatorSet|
    ensures 2 * (q - 1) <= |validatorSet|
  {
    |validatorSet| / 2 + 1
  }

  /** The block hashes of `votes`, in filing order. */
  function Hashes(votes: seq<Vote>): (hs: seq<string>)
    ensures |hs| == |votes|
    ensures forall i :: 0 <= i < |votes| ==> hs[i] == votes[i].blockHash
  {
    seq(|votes|, i requires 0 <= i < |votes| => votes[i].blockHash)
  }

  /** How many of `votes` name `bh`, repeats from one validator included:
      the reference count the tally is compared with. */
  function Count(votes: seq<Vote>, bh: string): nat
  {
    multiset(Hashes(votes))[bh]
  }

  /** The `tally` dictionary of `try_finalize`: its keys in insertion order
      (the order a Python dict iterates in) and the count per key. */
  datatype Tally = Tally(order: seq<string>, counts: map<string, nat>)

  /** The counting loop of `try_finalize` after its first `n` iterations over
      the hashes of the votes: a hash is inserted on first sight and
      incremented after, so the keys are exactly the hashes seen, each once,
      in order of first sight. */
  function TallyUpTo(hs: seq<string>, n: nat): (t: Tally)
    requires n <= |hs|
    ensures forall bh :: bh in t.counts <==> bh in t.order
    ensures forall i :: 0 <= i < n ==> hs[i] in t.counts
    ensures forall bh :: bh in t.counts ==> t.counts[bh] >= 1
  {
    if n == 0 then Tally([], map[])
    else
      var t := TallyUpTo(hs, n - 1);
      var bh := hs[n - 1];
      if bh in t.counts then Tally(t.order, t.counts[bh := t.counts[bh] + 1])
      else Tally(t.order + [bh], t.counts[bh := 1])
  }

  /** How many of the first `n` hashes equal `bh`. */
  function Occurrences(hs: seq<string>, n: nat, bh: string): nat
    requires n <= |hs|
  {
    if n == 0 then 0 else Occurrences(hs, n - 1, bh) + (if hs[n - 1] == bh then 1 else 0)
  }

  /** Each tally entry is the number of occurrences of its hash among the
      hashes counted so far. */
  lemma {:induction false} TallyCounts(hs: seq<string>, n: nat, bh: string)
    requires n <= |hs|
    ensures bh in TallyUpTo(hs, n).counts ==> TallyUpTo(hs, n).counts[bh] == Occurrences(hs, n, bh)
    ensures bh !in TallyUpTo(hs, n).counts ==> Occurrences(hs, n, bh) == 0
  {
    if n > 0 {
      TallyCounts(hs, n - 1, bh);
    }
  }

  /** Occurrences among all hashes is the multiset count. */
  lemma {:induction false} OccurrencesIsMultiplicity(hs: seq<string>, n: nat, bh: string)
    requires n <= |hs|
    ensures Occurrences(hs, n, bh) == multiset(hs[..n])[bh]
  {
    if n > 0 {
      OccurrencesIsMultiplicity(hs, n - 1, bh);
      assert hs[..n] == hs[..n - 1] + [hs[n - 1]];
    }
  }

  /** The whole counting loop. */
  function TallyHashes(hs: seq<string>): (t: Tally)
    ensures forall bh :: bh in t.counts <==> bh in hs
    ensures forall bh :: bh in t.counts ==> t.counts[bh] == multiset(hs)[bh]
  {
    var t := TallyUpTo(hs, |hs|);
    assert hs[..|hs|] == hs;
    assert forall bh :: bh in t.counts ==> t.counts[bh] == multiset(hs)[bh] by {
      forall bh | bh in t.counts
        ensures t.counts[bh] == multiset(hs)[bh]
      {
        TallyCounts(hs, |hs|, bh);
        OccurrencesIsMultiplicity(hs, |hs|, bh);
      }
    }
    t
  }

  /** The search loop of `try_finalize`: the first key, in insertion order,
      whose count reaches `maj`. */
  function FirstMajority(order: seq<string>, counts: map<string, nat>, maj: int): (r: Option<string>)
    requires forall i :: 0 <= i < |order| ==> order[i] in counts
    ensures r.Some? ==> r.value in order && counts[r.value] >= maj
    ensures r.None? ==> forall i :: 0 <= i < |order| ==> counts[order[i]] < maj
  {
    if |order| == 0 then None
    else if counts[order[0]] >= maj then Some(order[0])
    else FirstMajority(order[1..], counts, maj)
  }

  /** None of the first `k` hashes of `hs` has a count of `maj` in `c`. */
  ghost predicate NoMajorityBefore(hs: seq<string>, k: nat, c: map<string, nat>, maj: int)
    requires k <= |hs|
    requires forall i :: 0 <= i < |hs| ==> hs[i] in c
  {
    forall j :: 0 <= j < k ==> c[hs[j]] < maj
  }

  /** The reference meaning of the tally search over the first `n` hashes of
      `hs`, given a count per hash: the result is the earliest of them whose
      count reaches `maj`, or `None` when there is none. */
  ghost predicate EarliestIn(hs: seq<string>, n: nat, c: map<string, nat>, maj: int, r: Option<string>)
    requires n <= |hs|
    requires forall i :: 0 <= i < |hs| ==> hs[i] in c
  {
    && (r.Some? ==>
          exists k :: 0 <= k < n && hs[k] == r.value && c[hs[k]] >= maj && NoMajorityBefore(hs, k, c, maj))
    && (r.None? ==> NoMajorityBefore(hs, n, c, maj))
  }

  /** Adding a key at the end of the order only matters when no earlier key
      already reaches `maj`. */
  lemma {:induction false} FirstMajorityAppend(order: seq<string>, x: string, counts: map<string, nat>, maj: int)
    requires forall i :: 0 <= i < |order| ==> order[i] in counts
    requires x in counts
    ensures FirstMajority(order + [x], counts, maj)
         == if FirstMajority(order, counts, maj).Some? then FirstMajority(order, counts, maj)
            else if counts[x] >= maj then Some(x) else None
  {
    if |order| == 0 {
      assert order + [x] == [x];
      assert [x][1..] == [];
    } else {
      assert (order + [x])[1..] == order[1..] + [x];
      FirstMajorityAppend(order[1..], x, counts, maj);
    }
  }

  /** Searching the insertion order of the first `n` hashes finds the
      earliest of those hashes whose count reaches `maj`. */
  lemma {:induction false} TallyPicksEarliest(hs: seq<string>, n: nat, c: map<string, nat>, maj: int)
    requires n <= |hs|
    requires forall i :: 0 <= i < |hs| ==> hs[i] in c
    ensures forall i :: 0 <= i < |TallyUpTo(hs, n).order| ==> TallyUpTo(hs, n).order[i] in c
    ensures EarliestIn(hs, n, c, maj, FirstMajority(TallyUpTo(hs, n).order, c, maj))
  {
    if n > 0 {
      TallyPicksEarliest(hs, n - 1, c, maj);
      var t := TallyUpTo(hs, n - 1);
      var x := hs[n - 1];
      var prev := FirstMajority(t.order, c, maj);
      var r := FirstMajority(TallyUpTo(hs, n).order, c, maj);
      if x in t.counts {
        assert TallyUpTo(hs, n).order == t.order;
      } else {
        assert TallyUpTo(hs, n).order == t.order + [x];
        FirstMajorityAppend(t.order, x, c, maj);
      }
      if prev.Some? {
        assert r == prev;
        var k :| 0 <= k < n - 1 && hs[k] == prev.value && c[hs[k]] >= maj && NoMajorityBefore(hs, k, c, maj);
        assert 0 <= k < n;
      } else if c[x] < maj {
        assert r == None;
        assert NoMajorityBefore(hs, n, c, maj);
      } else if x in t.counts {
        assert false;
      } else {
        assert r == Some(x);
        assert hs[n - 1] == x && NoMajorityBefore(hs, n - 1, c, maj);
      }
    }
  }

  /** The hash `try_finalize` settles on for a list of precommits: the
      earliest-filed hash whose count of precommits reaches `maj`, if any. */
  function MajorityHash(votes: seq<Vote>, maj: int): (r: Option<string>)
    ensures r.Some? ==>
      exists k :: 0 <= k < |votes| && votes[k].blockHash == r.value && Count(votes, r.value) >= maj
                  && forall j :: 0 <= j < k ==> Count(votes, votes[j].blockHash) < maj
    ensures r.None? ==> forall j :: 0 <= j < |votes| ==> Count(votes, votes[j].blockHash) < maj
  {
    var hs := Hashes(votes);
    var t := TallyHashes(hs);
    TallyPicksEarliest(hs, |hs|, t.counts, maj);
    assert t == TallyUpTo(hs, |hs|);
    FirstMajority(t.order, t.counts, maj)
  }

  /** `ConsensusState.try_finalize(h)`: it never touches the votes or
      another height, it reports what it records, and a truthy entry is
      never overwritten. The lemmas below say when it records and when it
      raises. */
  function TryFinalize(cs: ConsensusState, h: int): (r: Outcome<Option<string>, ConsensusState>)
    ensures r.state == cs.(finalized := r.state.finalized)
    ensures r.state.finalized - {h} == cs.finalized - {h}
    ensures r.Raised? ==> r.state == cs && r.fault == SafetyViolation(h)
    ensures r.Done? && r.value.Some? ==> Get(r.state.finalized, h) == r.value
    ensures r.Done? && r.value.None? ==> h !in cs.finalized && r.state == cs
    ensures Truthy(Get(cs.finalized, h)) ==> r.state.finalized == cs.finalized
  {
    var votes := VotesAt(cs.precommits, h);
    if |votes| == 0 then Done(Get(cs.finalized, h), cs)
    else
      match MajorityHash(votes, Majority(cs.validatorSet))
      case None => Done(Get(cs.finalized, h), cs)
      case Some(bh) =>
        var prev := Get(cs.finalized, h);
        if Truthy(prev) && prev.value != bh then Raised(SafetyViolation(h), cs)
        else Done(Some(bh), cs.(finalized := cs.finalized[h := bh]))
  }

  /** No hash has a majority of the stored precommits at `h`. */
  ghost predicate NoMajority(cs: ConsensusState, h: int)
  {
    var votes := VotesAt(cs.precommits, h);
    forall j :: 0 <= j < |votes| ==> Count(votes, votes[j].blockHash) < Majority(cs.validatorSet)
  }

  /** Without a majority, `try_finalize` changes nothing and returns the
      existing entry (or `None`). */
  lemma TryFinalizeWithoutMajority(cs: ConsensusState, h: int)
    requires NoMajority(cs, h)
    ensures TryFinalize(cs, h) == Done(Get(cs.finalized, h), cs)
  {
  }

  /** With a majority, `try_finalize` either raises or records and returns a
      hash that has a majority, and it is the hash of the earliest filed
      precommit whose hash has one: the first key of the tally, in insertion
      order, to reach the threshold. */
  lemma TryFinalizeWithMajority(cs: ConsensusState, h: int)
    requires !NoMajority(cs, h)
    ensures var r := TryFinalize(cs, h);
      r.Raised? ||
      (r.value.Some? && Count(VotesAt(cs.precommits, h), r.value.value) >= Majority(cs.validatorSet)
       && r.state.finalized == cs.finalized[h := r.value.value])
    ensures var r := TryFinalize(cs, h); var votes := VotesAt(cs.precommits, h);
            var maj := Majority(cs.validatorSet);
      r.Done? ==>
        && r.value.Some?
        && exists k :: 0 <= k < |votes| && votes[k].blockHash == r.value.value && Count(votes, r.value.value) >= maj
                       && forall j :: 0 <= j < k ==> Count(votes, votes[j].blockHash) < maj
  {
  }

  /** `try_finalize` changes the state only by recording, at `h`, a hash that
      has a majority of the stored precommits there. */
  lemma TryFinalizeRecordsOnlyMajority(cs: ConsensusState, h: int)
    ensures var r := TryFinalize(cs, h);
      r.state != cs ==>
        r.Done? && r.value.Some?
        && Count(VotesAt(cs.precommits, h), r.value.value) >= Majority(cs.validatorSet)
        && r.state.finalized == cs.finalized[h := r.value.value]
  {
  }

  /** `try_finalize` raises exactly when a truthy entry is already recorded
      at `h` and the majority hash filed EARLIEST differs from it. A
      conflicting majority hash filed after the recorded one is not seen. */
  lemma TryFinalizeRaisesIff(cs: ConsensusState, h: int)
    ensures var votes := VotesAt(cs.precommits, h); var maj := Majority(cs.validatorSet);
      TryFinalize(cs, h).Raised? <==>
        Truthy(Get(cs.finalized, h))
        && exists k :: 0 <= k < |votes| && Count(votes, votes[k].blockHash) >= maj
                       && votes[k].blockHash != cs.finalized[h]
                       && forall j :: 0 <= j < k ==> Count(votes, votes[j].blockHash) < maj
  {
  }

  /** The two admission checks of `handle_vote`: the voter is a validator and
      the `"VOTE"`-context signature verifies under the voter's key. */
  predicate Admissible(o: Oracle, cs: ConsensusState, v: Vote)
  {
    AdmissibleUnder(o, cs.validatorSet, cs.chainId, v)
  }

  /** The admission checks for a given validator set and chain id: they read
      nothing else of the consensus state. */
  predicate AdmissibleUnder(o: Oracle, validatorSet: set<string>, chainId: string, v: Vote)
  {
    && v.validator in validatorSet
    && o.verify(v.validator, v.signature, EncodeVote(v), VoteContext, chainId)
  }

  /** How many of `votes` pass the admission checks. */
  function AdmissibleCount(o: Oracle, validatorSet: set<string>, chainId: string, votes: seq<Vote>): nat
    decreases |votes|
  {
    if |votes| == 0 then 0
    else AdmissibleCount(o, validatorSet, chainId, votes[1..]) + (if AdmissibleUnder(o, validatorSet, chainId, votes[0]) then 1 else 0)
  }

  /** `ConsensusState.handle_vote`. */
  function HandleVote(o: Oracle, cs: ConsensusState, v: Vote): (r: Outcome<bool, ConsensusState>)
    ensures r.state.validatorSet == cs.validatorSet && r.state.chainId == cs.chainId
    ensures v.validator !in cs.validatorSet ==> r == Done(false, cs)
    ensures !o.verify(v.validator, v.signature, EncodeVote(v), VoteContext, cs.chainId) ==> r == Done(false, cs)
    ensures r == Done(false, cs) <==> !Admissible(o, cs, v)
    ensures Admissible(o, cs, v) ==> r.Raised? || r.value
    ensures r.Raised? ==> v.phase == Precommit && r.fault == SafetyViolation(v.height)
    ensures Admissible(o, cs, v) && v.phase == Prevote ==>
      && r.Done?
      && VotesAt(r.state.prevotes, v.height) == VotesAt(cs.prevotes, v.height) + [v]
      && r.state.prevotes - {v.height} == cs.prevotes - {v.height}
      && r.state.precommits == cs.precommits
      && r.state.finalized == cs.finalized
    ensures Admissible(o, cs, v) && v.phase == Precommit ==>
      && VotesAt(r.state.precommits, v.height) == VotesAt(cs.precommits, v.height) + [v]
      && r.state.precommits - {v.height} == cs.precommits - {v.height}
      && r.state.prevotes == cs.prevotes
      && r.state.finalized - {v.height} == cs.finalized - {v.height}
      && var filed := cs.(precommits := r.state.precommits);
         r.state == TryFinalize(filed, v.height).state
         && (r.Raised? <==> TryFinalize(filed, v.height).Raised?)
    ensures Admissible(o, cs, v) && v.phase != Prevote && v.phase != Precommit ==> r == Done(true, cs)
    ensures forall h :: Truthy(Get(cs.finalized, h)) ==> Get(r.state.finalized, h) == Get(cs.finalized, h)
  {
    if v.validator !in cs.validatorSet then Done(false, cs)
    else if !o.verify(v.validator, v.signature, EncodeVote(v), VoteContext, cs.chainId) then Done(false, cs)
    else if v.phase == Prevote then
      Done(true, cs.(prevotes := FileVote(cs.prevotes, v.height, v)))
    else if v.phase == Precommit then
      var filed := cs.(precommits := FileVote(cs.precommits, v.height, v));
      match TryFinalize(filed, v.height)
      case Done(_, s) => Done(true, s)
      case Raised(f, s) => Raised(f, s)
    else Done(true, cs)
  }

  /** A run of `handle_vote` calls on one state, in order, ending early at
      the first exception. When no call raises, the number of accepted votes
      is the number that pass the admission checks: filing votes never
      changes the validator set or the chain id those checks read. */
  function HandleVotes(o: Oracle, cs: ConsensusState, votes: seq<Vote>): (r: Outcome<nat, ConsensusState>)
    ensures r.state.validatorSet == cs.validatorSet && r.state.chainId == cs.chainId
    ensures r.Done? ==> r.value == AdmissibleCount(o, cs.validatorSet, cs.chainId, votes)
    decreases |votes|
  {
    if |votes| == 0 then Done(0, cs)
    else
      match HandleVote(o, cs, votes[0])
      case Raised(f, s) => Raised(f, s)
      case Done(accepted, s) =>
        match HandleVotes(o, s, votes[1..])
        case Raised(f, s') => Raised(f, s')
        case Done(n, s') => Done(n + (if accepted then 1 else 0), s')
  }

  /** Once a truthy hash is recorded at a height, no later run of votes
      changes it: each call either keeps it or raises. */
  lemma {:induction false} FinalizedEntryPersists(o: Oracle, cs: ConsensusState, votes: seq<Vote>, h: int)
    requires Truthy(Get(cs.finalized, h))
    ensures Get(HandleVotes(o, cs, votes).state.finalized, h) == Get(cs.finalized, h)
    decreases |votes|
  {
    if |votes| > 0 {
      var first := HandleVote(o, cs, votes[0]);
      if first.Done? {
        FinalizedEntryPersists(o, first.state, votes[1..], h);
      }
    }
  }

  /** The recorded hash is chosen by filing order, not by which hash has a
      majority: with three validators (majority two), "A" recorded at height
      1 and precommits A, A, B, B filed there, "B" also has a majority, yet
      `try_finalize` returns "A" without raising. */
  lemma LaterConflictingMajorityNotReported()
    ensures
      var votes := [Vote("v1", 1, "A", Precommit, "s1"), Vote("v2", 1, "A", Precommit, "s2"),
                    Vote("v1", 1, "B", Precommit, "s3"), Vote("v2", 1, "B", Precommit, "s4")];
      var cs := ConsensusState({"v1", "v2", "v3"}, "chain", map[], map[1 := votes], map[1 := "A"]);
      && Count(votes, "B") >= Majority(cs.validatorSet)
      && TryFinalize(cs, 1) == Done(Some("A"), cs)
  {
    var votes := [Vote("v1", 1, "A", Precommit, "s1"), Vote("v2", 1, "A", Precommit, "s2"),
                  Vote("v1", 1, "B", Precommit, "s3"), Vote("v2", 1, "B", Precommit, "s4")];
    var cs := ConsensusState({"v1", "v2", "v3"}, "chain", map[], map[1 := votes], map[1 := "A"]);
    assert |cs.validatorSet| == 3;
    assert Majority(cs.validatorSet) == 2;
    assert VotesAt(cs.precommits, 1) == votes;
    assert Hashes(votes) == ["A", "A", "B", "B"];
    TwoEachCounted(votes);
    EarliestMajorityPicked(votes);
    assert Get(cs.finalized, 1) == Some("A");
  }

  /** With hashes A, A, B, B and majority two, the hash picked is "A". */
  lemma EarliestMajorityPicked(votes: seq<Vote>)
    requires Hashes(votes) == ["A", "A", "B", "B"]
    ensures MajorityHash(votes, 2) == Some("A")
  {
    TwoEachCounted(votes);
    assert Count(votes, votes[0].blockHash) == 2;
    var r := MajorityHash(votes, 2);
    if r.None? {
      assert false;
    }
    var k :| 0 <= k < |votes| && votes[k].blockHash == r.value && Count(votes, r.value) >= 2
             && forall j :: 0 <= j < k ==> Count(votes, votes[j].blockHash) < 2;
    if k > 0 {
      assert false;
    }
  }

  /** Each of "A" and "B" is named twice in a run of hashes A, A, B, B. */
  lemma TwoEachCounted(votes: seq<Vote>)
    requires Hashes(votes) == ["A", "A", "B", "B"]
    ensures Count(votes, "A") == 2 && Count(votes, "B") == 2
  {
    var hs := Hashes(votes);
    assert hs == ["A", "A"] + ["B", "B"];
    assert multiset(hs) == multiset(["A", "A"]) + multiset(["B", "B"]);
  }
}

=== FILE: crypto.dfy ===
/** Signing, verification and hashing as uninterpreted functions.

    The repository wraps Ed25519 signatures and SHA-256 over a canonical JSON
    encoding (src/crypto.py). None of that is modelled: every primitive is a
    function-valued field of an `Oracle` that callers pass in, so every result
    below holds for ALL choices of the primitives, except where a lemma
    requires `SignaturesVerify` of a key. */
module Crypto {

  /** The dictionaries the repository hands to signing and hashing: the
      `encode()` of a header, a vote and a transaction, and the raw key-value
      data of an application state. */
  datatype Payload =
    | HeaderPayload(parentHash: string, height: int, stateHash: string, proposer: string)
    | VotePayload(validator: string, height: int, blockHash: string, phase: string)
    | TxPayload(sender: string, key: string, value: string)
    | StatePayload(data: map<string, string>)

  /** The cryptographic primitives, left uninterpreted.
      - `publicKey(secret)`: `NodeKey.get_public_key_hex`
      - `sign(secret, message, context, chainId)`: `NodeKey.sign`
      - `verify(publicKey, signature, message, context, chainId)`: `Validator.verify`
      - `hash(data)`: `CryptoUtils.hash_data` */
  datatype Oracle = Oracle(
    publicKey: string -> string,
    sign: (string, Payload, string, string) -> string,
    verify: (string, string, Payload, string, string) -> bool,
    hash: Payload -> string)

  /** A node's signing key; only its secret part identifies it. */
  datatype NodeKey = NodeKey(secret: string)

  /** Domain-separation contexts used by the three kinds of signed message. */
  const VoteContext: string := "VOTE"
  const TxContext: string := "TX"
  const HeaderContext: string := "HEADER"

  function PublicKeyOf(o: Oracle, k: NodeKey): string
  {
    o.publicKey(k.secret)
  }

  function Sign(o: Oracle, k: NodeKey, m: Payload, context: string, chainId: string): string
  {
    o.sign(k.secret, m, context, chainId)
  }

  /** The only assumption ever made about the primitives: a signature made
      with `k` verifies under `k`'s public key, for the same message, context
      and chain id. Nothing is assumed about forgeries or collisions. */
  ghost predicate SignaturesVerify(o: Oracle, k: NodeKey)
  {
    forall m: Payload, context: string, chainId: string ::
      o.verify(o.publicKey(k.secret), o.sign(k.secret, m, context, chainId), m, context, chainId)
  }
}

=== FILE: execution.dfy ===
/** Key-value execution: `Transaction`, `AppState` and `build_block` of
    src/execution.py.

    A transaction is a guarded overwrite of one key. Whether it applies
    depends only on the transaction (its key lies in the sender's namespace
    and its `"TX"`-context signature verifies), never on the current data;
    there are no nonces or balances. */
module Execution {
  import opened Crypto
  import opened Consensus

  /** A request by `sender` to set `key` to `value`. */
  datatype Transaction = Transaction(sender: string, key: string, value: string, signature: string)

  /** `Transaction.encode`: every field except the signature. */
  function EncodeTx(tx: Transaction): Payload
  {
    TxPayload(tx.sender, tx.key, tx.value)
  }

  /** Two transactions encode alike exactly when they agree on everything
      but the signature. */
  lemma TxEncodingIgnoresOnlySignature(t1: Transaction, t2: Transaction)
    ensures EncodeTx(t1) == EncodeTx(t2) <==> t1.(signature := "") == t2.(signature := "")
  {
  }

  /** `tx.key.startswith(tx.sender + "/")`. */
  predicate OwnsKey(tx: Transaction)
  {
    tx.sender + "/" <= tx.key
  }

  /** Both checks of `apply_tx`; neither looks at the application data. */
  predicate TxValid(o: Oracle, tx: Transaction, chainId: string)
  {
    OwnsKey(tx) && o.verify(tx.sender, tx.signature, EncodeTx(tx), TxContext, chainId)
  }

  /** The `data` dictionary of an `AppState`. */
  type Data = map<string, string>

  /** What `apply_tx` returns, with the data as it leaves it. */
  datatype Applied = Applied(ok: bool, data: Data)

  /** `AppState.apply_tx`: a valid transaction overwrites its one key and
      leaves every other key alone; an invalid one changes nothing. */
  function ApplyTx(o: Oracle, data: Data, tx: Transaction, chainId: string): (r: Applied)
    ensures r.ok <==> TxValid(o, tx, chainId)
    ensures !OwnsKey(tx) ==> r == Applied(false, data)
    ensures !r.ok ==> r.data == data
    ensures r.ok ==> tx.key in r.data && r.data[tx.key] == tx.value
    ensures r.data - {tx.key} == data - {tx.key}
  {
    if !OwnsKey(tx) then Applied(false, data)
    else if !o.verify(tx.sender, tx.signature, EncodeTx(tx), TxContext, chainId) then Applied(false, data)
    else Applied(true, data[tx.key := tx.value])
  }

  /** The replay loop of `build_block` and of the node's finalisation:
      apply each transaction in order, skipping the invalid ones. No key is
      ever removed. */
  function ApplyAll(o: Oracle, data: Data, txs: seq<Transaction>, chainId: string): (r: Data)
    ensures data.Keys <= r.Keys
    decreases |txs|
  {
    if |txs| == 0 then data
    else ApplyAll(o, ApplyTx(o, data, txs[0], chainId).data, txs[1..], chainId)
  }

  /** The reference meaning of a transaction list: for every key some valid
      transaction writes, the value of the LAST such transaction. */
  function Writes(o: Oracle, txs: seq<Transaction>, chainId: string): Data
    decreases |txs|
  {
    if |txs| == 0 then map[]
    else
      var first: Data := if TxValid(o, txs[0], chainId) then map[txs[0].key := txs[0].value] else map[];
      first + Writes(o, txs[1..], chainId)
  }

  /** Replaying a list overlays its writes on the starting data: keys it
      never validly writes keep their old values. */
  lemma {:induction false} ApplyAllOverlaysWrites(o: Oracle, data: Data, txs: seq<Transaction>, chainId: string)
    ensures ApplyAll(o, data, txs, chainId) == data + Writes(o, txs, chainId)
    decreases |txs|
  {
    if |txs| == 0 {
      assert data + map[] == data;
    } else {
      var tx := txs[0];
      var rest := Writes(o, txs[1..], chainId);
      var next := ApplyTx(o, data, tx, chainId).data;
      ApplyAllOverlaysWrites(o, next, txs[1..], chainId);
      if TxValid(o, tx, chainId) {
        assert next == data + map[tx.key := tx.value];
        assert next + rest == data + (map[tx.key := tx.value] + rest);
      } else {
        assert map[] + rest == rest;
      }
    }
  }

  /** A key that a valid transaction of the list names is in the last-write
      map. */
  lemma {:induction false} ValidTransactionKeyWritten(o: Oracle, txs: seq<Transaction>, chainId: string, j: int)
    requires 0 <= j < |txs| && TxValid(o, txs[j], chainId)
    ensures txs[j].key in Writes(o, txs, chainId)
    decreases |txs|
  {
    if j > 0 {
      assert txs[1..][j - 1] == txs[j];
      ValidTransactionKeyWritten(o, txs[1..], chainId, j - 1);
    }
  }

  /** Every key of the last-write map is written by some valid transaction
      of the list, with the value of the last one: no later transaction
      naming that key is valid. */
  lemma {:induction false} WrittenKeysComeFromValidTransactions(o: Oracle, txs: seq<Transaction>, chainId: string, k: string)
    requires k in Writes(o, txs, chainId)
    ensures exists i :: 0 <= i < |txs| && txs[i].key == k && TxValid(o, txs[i], chainId)
                        && Writes(o, txs, chainId)[k] == txs[i].value
                        && forall j :: i < j < |txs| && txs[j].key == k ==> !TxValid(o, txs[j], chainId)
    decreases |txs|
  {
    var rest := Writes(o, txs[1..], chainId);
    if k in rest {
      WrittenKeysComeFromValidTransactions(o, txs[1..], chainId, k);
      var j :| 0 <= j < |txs[1..]| && txs[1..][j].key == k && TxValid(o, txs[1..][j], chainId) && rest[k] == txs[1..][j].value
               && forall j' :: j < j' < |txs[1..]| && txs[1..][j'].key == k ==> !TxValid(o, txs[1..][j'], chainId);
      assert txs[j + 1] == txs[1..][j];
      forall j' | j + 1 < j' < |txs| && txs[j'].key == k
        ensures !TxValid(o, txs[j'], chainId)
      {
        assert txs[j'] == txs[1..][j' - 1];
      }
    } else {
      assert txs[0].key == k && TxValid(o, txs[0], chainId);
      forall j | 0 < j < |txs| && txs[j].key == k
        ensures !TxValid(o, txs[j], chainId)
      {
        if TxValid(o, txs[j], chainId) {
          assert txs[1..][j - 1] == txs[j];
          ValidTransactionKeyWritten(o, txs[1..], chainId, j - 1);
          assert false;
        }
      }
    }
  }

  /** A key that no transaction of the list names keeps its value through
      the replay. */
  lemma ReplayKeepsUnnamedKeys(o: Oracle, data: Data, txs: seq<Transaction>, chainId: string, k: string)
    requires k in data
    requires forall i :: 0 <= i < |txs| ==> txs[i].key != k
    ensures k in ApplyAll(o, data, txs, chainId) && ApplyAll(o, data, txs, chainId)[k] == data[k]
  {
    ApplyAllOverlaysWrites(o, data, txs, chainId);
    if k in Writes(o, txs, chainId) {
      WrittenKeysComeFromValidTransactions(o, txs, chainId, k);
    }
  }

  /** Replaying the same list a second time changes nothing: re-applying a
      block body is idempotent. */
  lemma ApplyAllIdempotent(o: Oracle, data: Data, txs: seq<Transaction>, chainId: string)
    ensures ApplyAll(o, ApplyAll(o, data, txs, chainId), txs, chainId) == ApplyAll(o, data, txs, chainId)
  {
    var w := Writes(o, txs, chainId);
    ApplyAllOverlaysWrites(o, data, txs, chainId);
    ApplyAllOverlaysWrites(o, data + w, txs, chainId);
    assert (data + w) + w == data + w;
  }

  /** `AppState.get_commitment`: a hash of the data itself, so it depends on
      the contents only. */
  function Commitment(o: Oracle, data: Data): string
  {
    o.hash(StatePayload(data))
  }

  /** Two lists with the same last-write map lead, from the same data, to
      the same data and so to the same commitment, however their writes are
      ordered or repeated. */
  lemma SameWritesSameCommitment(o: Oracle, data: Data, txs1: seq<Transaction>, txs2: seq<Transaction>, chainId: string)
    requires Writes(o, txs1, chainId) == Writes(o, txs2, chainId)
    ensures ApplyAll(o, data, txs1, chainId) == ApplyAll(o, data, txs2, chainId)
    ensures Commitment(o, ApplyAll(o, data, txs1, chainId)) == Commitment(o, ApplyAll(o, data, txs2, chainId))
  {
    ApplyAllOverlaysWrites(o, data, txs1, chainId);
    ApplyAllOverlaysWrites(o, data, txs2, chainId);
  }

  /** Two transactions on different keys commute, so states that received
      the same such writes in either order have equal data and equal
      commitments. */
  lemma WritesToDistinctKeysCommute(o: Oracle, data: Data, t1: Transaction, t2: Transaction, chainId: string)
    requires t1.key != t2.key
    ensures var d12 := ApplyTx(o, ApplyTx(o, data, t1, chainId).data, t2, chainId).data;
            var d21 := ApplyTx(o, ApplyTx(o, data, t2, chainId).data, t1, chainId).data;
            d12 == d21 && Commitment(o, d12) == Commitment(o, d21)
  {
  }

  /** A later valid write to the same key wins, whatever the earlier one
      was. */
  lemma LaterWriteOverwrites(o: Oracle, data: Data, t1: Transaction, t2: Transaction, chainId: string)
    requires t1.key == t2.key && TxValid(o, t2, chainId)
    ensures ApplyTx(o, ApplyTx(o, data, t1, chainId).data, t2, chainId).data == ApplyTx(o, data, t2, chainId).data
    ensures ApplyTx(o, ApplyTx(o, data, t1, chainId).data, t2, chainId).data[t2.key] == t2.value
  {
  }

  /** What `build_block` returns: the signed header and the fresh state. */
  datatype Built = Built(header: BlockHeader, data: Data)

  /** `build_block`: replay on an EMPTY state, then a header one above the
      parent, pointing at the parent's hash, committing to the result and
      signed by the proposer in the `"HEADER"` context. */
  function BuildBlock(o: Oracle, parent: BlockHeader, txs: seq<Transaction>, proposer: NodeKey, chainId: string): (r: Built)
    ensures r.header.height == parent.height + 1
    ensures r.header.parentHash == HeaderHash(o, parent)
    ensures r.header.proposer == PublicKeyOf(o, proposer)
    ensures r.data == Writes(o, txs, chainId)
    ensures r.header.stateHash == Commitment(o, Writes(o, txs, chainId))
    ensures r.header.signature == Sign(o, proposer, EncodeHeader(r.header), HeaderContext, chainId)
  {
    var data := ApplyAll(o, map[], txs, chainId);
    ApplyAllOverlaysWrites(o, map[], txs, chainId);
    assert map[] + Writes(o, txs, chainId) == Writes(o, txs, chainId);
    var unsigned := BlockHeader(HeaderHash(o, parent), parent.height + 1, Commitment(o, data), PublicKeyOf(o, proposer), "");
    Built(unsigned.(signature := Sign(o, proposer, EncodeHeader(unsigned), HeaderContext, chainId)), data)
  }

  /** A header built by a key whose signatures verify carries a valid
      `"HEADER"` signature for its own proposer field. */
  lemma BuiltHeaderVerifies(o: Oracle, parent: BlockHeader, txs: seq<Transaction>, proposer: NodeKey, chainId: string)
    requires SignaturesVerify(o, proposer)
    ensures var h := BuildBlock(o, parent, txs, proposer, chainId).header;
            o.verify(h.proposer, h.signature, EncodeHeader(h), HeaderContext, chainId)
  {
  }

  /** The state hash depends on the transactions alone: not on the parent,
      not on who builds. This is what lets a receiver recompute it. */
  lemma StateHashDependsOnlyOnTransactions(o: Oracle, p1: BlockHeader, p2: BlockHeader, txs: seq<Transaction>,
                                           k1: NodeKey, k2: NodeKey, chainId: string)
    ensures BuildBlock(o, p1, txs, k1, chainId).header.stateHash == BuildBlock(o, p2, txs, k2, chainId).header.stateHash
  {
  }
}

=== FILE: node.dfy ===
/** Node orchestration: `BlockchainNode` of src/node.py.

    A node owns one consensus state, one application state, a block store
    keyed by header hash, a mempool and the set of vote ids it has accepted.
    Every operation is a pure transition returning the updated node; logging
    has no effect on state and is left out. */
module Node {
  import opened Base
  import opened Crypto
  import opened Consensus
  import opened Execution

  datatype BlockchainNode = BlockchainNode(
    nodeId: string,
    key: NodeKey,
    publicKey: string,
    chainId: string,
    consensus: ConsensusState,
    state: Data,
    blocks: map<string, BlockHeader>,
    blockBodies: map<string, seq<Transaction>>,
    currentHeight: int,
    genesis: BlockHeader,
    pendingTxs: seq<Transaction>,
    seenVotes: set<string>)

  /** A return value together with the node as the call leaves it. */
  datatype Reply<+T> = Reply(value: T, node: BlockchainNode)

  /** `"0" * k` */
  function Zeros(k: nat): (z: string)
    ensures |z| == k && forall i :: 0 <= i < k ==> z[i] == '0'
  {
    if k == 0 then "" else Zeros(k - 1) + "0"
  }

  /** `"0" * 64`, the genesis parent hash. */
  const NullHash: string := Zeros(64)

  /** The genesis header: height 0, an all-zero 64-character parent hash,
      a commitment to the empty state, proposer `"genesis"` and no
      signature. */
  function GenesisHeader(o: Oracle): (g: BlockHeader)
    ensures g.height == 0
    ensures |g.parentHash| == 64 && forall i :: 0 <= i < |g.parentHash| ==> g.parentHash[i] == '0'
    ensures g.stateHash == Commitment(o, map[])
    ensures g.proposer == "genesis" && g.signature == ""
  {
    BlockHeader(NullHash, 0, Commitment(o, map[]), "genesis", "")
  }

  /** What every reachable node satisfies: each stored header sits under its
      own hash, every stored header has a body, and the cached public key and
      the consensus chain id agree with the node's key and chain id. */
  ghost predicate Consistent(o: Oracle, n: BlockchainNode)
  {
    && (forall h :: h in n.blocks ==> HeaderHash(o, n.blocks[h]) == h)
    && n.blockBodies.Keys == n.blocks.Keys
    && n.publicKey == PublicKeyOf(o, n.key)
    && n.consensus.chainId == n.chainId
  }

  /** `BlockchainNode.__init__`: the genesis block is stored with an empty
      body and is the finalised block of height 0. */
  function Init(o: Oracle, nodeId: string, key: NodeKey, validatorSet: set<string>, chainId: string): (n: BlockchainNode)
    ensures n.nodeId == nodeId && n.key == key && n.chainId == chainId
    ensures n.genesis == GenesisHeader(o)
    ensures n.genesis.height == 0 && n.genesis.parentHash == NullHash
    ensures n.genesis.stateHash == Commitment(o, map[])
    ensures n.blocks == map[HeaderHash(o, n.genesis) := n.genesis]
    ensures n.blockBodies == map[HeaderHash(o, n.genesis) := []]
    ensures n.consensus.finalized == map[0 := HeaderHash(o, n.genesis)]
    ensures n.consensus.prevotes == map[] && n.consensus.precommits == map[]
    ensures n.consensus.validatorSet == validatorSet
    ensures n.state == map[] && n.currentHeight == 0 && n.pendingTxs == [] && n.seenVotes == {}
    ensures Consistent(o, n)
  {
    var genesis := GenesisHeader(o);
    var gh := HeaderHash(o, genesis);
    var cs := NewConsensusState(validatorSet, chainId);
    BlockchainNode(
      nodeId, key, PublicKeyOf(o, key), chainId,
      cs.(finalized := cs.finalized[0 := gh]),
      map[],
      map[gh := genesis],
      map[gh := []],
      0,
      genesis,
      [],
      {})
  }

  /** `receive_transaction`: admission by a dry run on a copy of the live
      data. The transaction is queued exactly when it is valid, and the live
      data never changes. */
  function ReceiveTransaction(o: Oracle, n: BlockchainNode, tx: Transaction): (r: Reply<bool>)
    ensures r.value <==> TxValid(o, tx, n.chainId)
    ensures r.node.state == n.state
    ensures r.value ==> r.node == n.(pendingTxs := n.pendingTxs + [tx])
    ensures !r.value ==> r.node == n
  {
    var trial := ApplyTx(o, n.state, tx, n.chainId);
    if trial.ok then Reply(true, n.(pendingTxs := n.pendingTxs + [tx]))
    else Reply(false, n)
  }

  /** Every queued transaction is valid. */
  ghost predicate MempoolValid(o: Oracle, n: BlockchainNode)
  {
    forall i :: 0 <= i < |n.pendingTxs| ==> TxValid(o, n.pendingTxs[i], n.chainId)
  }

  /** Admission keeps the mempool free of invalid transactions. */
  lemma ReceiveTransactionKeepsMempoolValid(o: Oracle, n: BlockchainNode, tx: Transaction)
    requires MempoolValid(o, n)
    ensures MempoolValid(o, ReceiveTransaction(o, n, tx).node)
  {
  }

  /** `propose_block`: on a known parent, build over the whole mempool, store
      the header under its hash with a copy of the mempool as body, and empty
      the mempool; the live data is untouched. */
  function ProposeBlock(o: Oracle, n: BlockchainNode, parentHash: string): (r: Reply<Option<BlockHeader>>)
    ensures parentHash !in n.blocks ==> r == Reply(None, n)
    ensures parentHash in n.blocks ==>
      && r.value.Some?
      && var h := r.value.value;
      && var parent := n.blocks[parentHash];
      && h.height == parent.height + 1
      && h.parentHash == HeaderHash(o, parent)
      && h.proposer == PublicKeyOf(o, n.key)
      && h.stateHash == Commitment(o, Writes(o, n.pendingTxs, n.chainId))
      && h.signature == Sign(o, n.key, EncodeHeader(h), HeaderContext, n.chainId)
      && r.node == n.(blocks := n.blocks[HeaderHash(o, h) := h],
                      blockBodies := n.blockBodies[HeaderHash(o, h) := n.pendingTxs],
                      pendingTxs := [])
  {
    if parentHash !in n.blocks then Reply(None, n)
    else
      var built := BuildBlock(o, n.blocks[parentHash], n.pendingTxs, n.key, n.chainId);
      var h := built.header;
      var bh := HeaderHash(o, h);
      Reply(Some(h), n.(blocks := n.blocks[bh := h], blockBodies := n.blockBodies[bh := n.pendingTxs], pendingTxs := []))
  }

  /** On a consistent node the proposal points at the parent it was asked
      to extend. */
  lemma ProposalExtendsRequestedParent(o: Oracle, n: BlockchainNode, parentHash: string)
    requires Consistent(o, n) && parentHash in n.blocks
    ensures ProposeBlock(o, n, parentHash).value.value.parentHash == parentHash
  {
  }

  /** The three checks a new header must pass in `receive_block`: its parent
      is stored, its `"HEADER"` signature verifies under its proposer field,
      and replaying the body on an empty state reproduces its state hash. */
  predicate BlockChecksPass(o: Oracle, n: BlockchainNode, header: BlockHeader, txs: seq<Transaction>)
  {
    && header.parentHash in n.blocks
    && o.verify(header.proposer, header.signature, EncodeHeader(header), HeaderContext, n.chainId)
    && header.stateHash == Commitment(o, Writes(o, txs, n.chainId))
  }

  /** `receive_block`. A known hash is acknowledged without change; an
      unknown parent, a bad signature or a state-hash mismatch is refused
      without change; otherwise header and body are stored. */
  function ReceiveBlock(o: Oracle, n: BlockchainNode, header: BlockHeader, txs: seq<Transaction>): (r: Reply<bool>)
    ensures HeaderHash(o, header) in n.blocks ==> r == Reply(true, n)
    ensures HeaderHash(o, header) !in n.blocks && header.parentHash !in n.blocks ==> r == Reply(false, n)
    ensures HeaderHash(o, header) !in n.blocks
            && !o.verify(header.proposer, header.signature, EncodeHeader(header), HeaderContext, n.chainId)
            ==> r == Reply(false, n)
    ensures HeaderHash(o, header) !in n.blocks && header.stateHash != Commitment(o, Writes(o, txs, n.chainId))
            ==> r == Reply(false, n)
    ensures HeaderHash(o, header) !in n.blocks && BlockChecksPass(o, n, header, txs) ==>
            r == Reply(true, n.(blocks := n.blocks[HeaderHash(o, header) := header],
                                blockBodies := n.blockBodies[HeaderHash(o, header) := txs]))
    ensures r.node != n ==> HeaderHash(o, header) !in n.blocks && BlockChecksPass(o, n, header, txs) && r.value
  {
    var bh := HeaderHash(o, header);
    if bh in n.blocks then Reply(true, n)
    else if header.parentHash !in n.blocks then Reply(false, n)
    else if !o.verify(header.proposer, header.signature, EncodeHeader(header), HeaderContext, n.chainId) then Reply(false, n)
    else
      var recomputed := BuildBlock(o, n.blocks[header.parentHash], txs, n.key, n.chainId);
      if recomputed.header.stateHash != header.stateHash then Reply(false, n)
      else Reply(true, n.(blocks := n.blocks[bh := header], blockBodies := n.blockBodies[bh := txs]))
  }

  /** A block proposed by a node whose signatures verify is stored by every
      other consistent node that already holds its parent and not yet the
      block. */
  lemma HonestProposalAccepted(o: Oracle, p: BlockchainNode, q: BlockchainNode, parentHash: string)
    requires Consistent(o, p) && Consistent(o, q)
    requires SignaturesVerify(o, p.key)
    requires parentHash in p.blocks && parentHash in q.blocks
    requires q.chainId == p.chainId
    ensures var h := ProposeBlock(o, p, parentHash).value.value;
            HeaderHash(o, h) !in q.blocks ==>
              ReceiveBlock(o, q, h, p.pendingTxs)
              == Reply(true, q.(blocks := q.blocks[HeaderHash(o, h) := h],
                                blockBodies := q.blockBodies[HeaderHash(o, h) := p.pendingTxs]))
  {
  }

  /** `create_vote`: a vote by this node's public key, signed in the
      `"VOTE"` context. */
  function CreateVote(o: Oracle, n: BlockchainNode, blockHash: string, height: int, phase: string): (v: Vote)
    ensures v.validator == n.publicKey && v.height == height && v.blockHash == blockHash && v.phase == phase
    ensures v.signature == Sign(o, n.key, EncodeVote(v), VoteContext, n.chainId)
  {
    var unsigned := Vote(n.publicKey, height, blockHash, phase, "");
    unsigned.(signature := Sign(o, n.key, EncodeVote(unsigned), VoteContext, n.chainId))
  }

  /** A vote created by a validator whose signatures verify passes both
      admission checks of any node on the same chain. */
  lemma CreatedVoteAdmissible(o: Oracle, n: BlockchainNode, m: BlockchainNode, blockHash: string, height: int, phase: string)
    requires Consistent(o, n) && Consistent(o, m)
    requires SignaturesVerify(o, n.key)
    requires n.publicKey in m.consensus.validatorSet && m.chainId == n.chainId
    ensures Admissible(o, m.consensus, CreateVote(o, n, blockHash, height, phase))
  {
  }

  /** The digit for `d`. */
  function DigitChar(d: nat): (c: char)
    requires d < 10
    ensures '0' <= c <= '9'
  {
    "0123456789"[d]
  }

  /** The decimal digits of `k`, most significant first, with no leading
      zero. */
  function Digits(k: nat): (ds: string)
    ensures |ds| >= 1 && (ds[0] == '0' ==> k == 0)
    ensures forall i :: 0 <= i < |ds| ==> '0' <= ds[i] <= '9'
    decreases k
  {
    if k < 10 then [DigitChar(k)] else Digits(k / 10) + [DigitChar(k % 10)]
  }

  /** Different numbers have different digit strings. */
  lemma {:induction false} DigitsInjective(a: nat, b: nat)
    requires Digits(a) == Digits(b)
    ensures a == b
    decreases a
  {
    if a >= 10 && b >= 10 {
      var da := Digits(a);
      assert da[|da| - 1] == DigitChar(a % 10) && Digits(b)[|da| - 1] == DigitChar(b % 10);
      assert a % 10 == b % 10;
      assert Digits(a / 10) == da[..|da| - 1] == Digits(b / 10);
      DigitsInjective(a / 10, b / 10);
    } else if a >= 10 {
      assert false;
    } else if b >= 10 {
      assert false;
    }
  }

  /** The number a string of decimal digits denotes, most significant
      digit first; the reading `int(s)` gives. */
  function DigitsValue(s: string): int
    decreases |s|
  {
    if |s| == 0 then 0
    else DigitsValue(s[..|s| - 1]) * 10 + (s[|s| - 1] as int - '0' as int)
  }

  /** Reading back the digits of `k` gives `k`. */
  lemma {:induction false} DigitsRoundTrip(k: nat)
    ensures DigitsValue(Digits(k)) == k
    decreases k
  {
    var ds := Digits(k);
    if k < 10 {
      assert ds[..0] == [];
      assert "0123456789"[k] as int - '0' as int == k;
    } else {
      assert ds[..|ds| - 1] == Digits(k / 10);
      assert "0123456789"[k % 10] as int - '0' as int == k % 10;
      DigitsRoundTrip(k / 10);
    }
  }

  /** `int(s)` on a decimal string: an optional minus sign, then digits. */
  function DecimalValue(s: string): int
  {
    if |s| > 0 && s[0] == '-' then -DigitsValue(s[1..]) else DigitsValue(s)
  }

  /** Python's `str(i)` for an integer: a minus sign exactly for negative
      numbers, then decimal digits. */
  function DecimalString(i: int): (s: string)
    ensures |s| >= 1 && (s[0] == '-' <==> i < 0)
    ensures forall j :: 1 <= j < |s| ==> '0' <= s[j] <= '9'
  {
    if i < 0 then "-" + Digits(-i) else Digits(i)
  }

  /** Reading back the rendering of `i` gives `i`. */
  lemma DecimalStringRoundTrip(i: int)
    ensures DecimalValue(DecimalString(i)) == i
  {
    if i < 0 {
      assert DecimalString(i)[1..] == Digits(-i);
      DigitsRoundTrip(-i);
    } else {
      DigitsRoundTrip(i);
    }
  }

  /** Different heights render differently. */
  lemma DecimalStringInjective(a: int, b: int)
    requires DecimalString(a) == DecimalString(b)
    ensures a == b
  {
    if a < 0 {
      assert Digits(-a) == DecimalString(a)[1..] == DecimalString(b)[1..] == Digits(-b);
      DigitsInjective(-a, -b);
    } else {
      DigitsInjective(a, b);
    }
  }

  /** The duplicate-detection key of `receive_vote`,
      `f"{validator}:{height}:{phase}:{block_hash}"`; the signature is not
      part of it. */
  function VoteId(v: Vote): string
  {
    v.validator + ":" + DecimalString(v.height) + ":" + v.phase + ":" + v.blockHash
  }

  /** The id ignores the signature: the same vote with another signature
      is a duplicate. */
  lemma VoteIdIgnoresSignature(v: Vote, signature: string)
    ensures VoteId(v.(signature := signature)) == VoteId(v)
  {
  }

  /** Two votes that differ only in their block hash get different ids, so
      one is never taken for a duplicate of the other. */
  lemma VoteIdSeparatesBlockHashes(v1: Vote, v2: Vote)
    requires v1.validator == v2.validator && v1.height == v2.height && v1.phase == v2.phase
    requires v1.blockHash != v2.blockHash
    ensures VoteId(v1) != VoteId(v2)
  {
    var prefix := v1.validator + ":" + DecimalString(v1.height) + ":" + v1.phase + ":";
    assert VoteId(v1) == prefix + v1.blockHash && VoteId(v2) == prefix + v2.blockHash;
    assert (prefix + v1.blockHash)[|prefix|..] == v1.blockHash;
    assert (prefix + v2.blockHash)[|prefix|..] == v2.blockHash;
  }

  /** `block_bodies.get(block_hash, [])` */
  function BodyOf(n: BlockchainNode, blockHash: string): (txs: seq<Transaction>)
    ensures blockHash in n.blockBodies ==> txs == n.blockBodies[blockHash]
    ensures blockHash !in n.blockBodies ==> txs == []
  {
    if blockHash in n.blockBodies then n.blockBodies[blockHash] else []
  }

  /** `_finalize_block`: for a stored block, replay its body on the live
      data, which overlays the body's writes, and raise `current_height` to
      at least `height`; an unknown block changes nothing. */
  function FinalizeBlock(o: Oracle, n: BlockchainNode, height: int, blockHash: string): (r: BlockchainNode)
    ensures blockHash !in n.blocks ==> r == n
    ensures blockHash in n.blocks ==>
      && r == n.(state := r.state, currentHeight := r.currentHeight)
      && r.state == n.state + Writes(o, BodyOf(n, blockHash), n.chainId)
      && r.currentHeight >= height
    ensures r.currentHeight >= n.currentHeight
    ensures r.currentHeight == n.currentHeight || r.currentHeight == height
  {
    if blockHash !in n.blocks then n
    else
      var txs := BodyOf(n, blockHash);
      ApplyAllOverlaysWrites(o, n.state, txs, n.chainId);
      var h := if n.currentHeight >= height then n.currentHeight else height;
      n.(state := ApplyAll(o, n.state, txs, n.chainId), currentHeight := h)
  }

  /** Finalising the same block twice in a row leaves the data as one
      finalisation left it. */
  lemma RefinalizeKeepsState(o: Oracle, n: BlockchainNode, h1: int, h2: int, blockHash: string)
    ensures FinalizeBlock(o, FinalizeBlock(o, n, h1, blockHash), h2, blockHash).state
         == FinalizeBlock(o, n, h1, blockHash).state
  {
  }

  /** The live data already reflects the body of `blockHash`: replaying it
      again would change nothing. */
  ghost predicate BodyReflected(o: Oracle, n: BlockchainNode, blockHash: string)
  {
    blockHash in n.blocks ==> n.state + Writes(o, BodyOf(n, blockHash), n.chainId) == n.state
  }

  /** Finalising a block leaves its body reflected in the data. */
  lemma FinalizeReflectsBody(o: Oracle, n: BlockchainNode, height: int, blockHash: string)
    ensures BodyReflected(o, FinalizeBlock(o, n, height, blockHash), blockHash)
  {
  }

  /** After `handle_vote`, the hash finalised at the vote's height is
      truthy and is the hash the vote names: the condition on which
      `receive_vote` calls `_finalize_block`. */
  predicate NamesFinalizedHash(cs: ConsensusState, v: Vote)
  {
    Truthy(Get(cs.finalized, v.height)) && cs.finalized[v.height] == v.blockHash
  }

  /** `receive_vote`. A vote whose id was already accepted is ignored. The
      others go to `handle_vote`; a refused vote changes nothing, an
      exception propagates (the vote stays filed but its id is not
      recorded), and an accepted vote records its id and, when the truthy
      hash finalised at its height is the hash it names, finalises that
      block, whether or not it was finalised before. */
  function ReceiveVote(o: Oracle, n: BlockchainNode, v: Vote): (r: Outcome<bool, BlockchainNode>)
    ensures VoteId(v) in n.seenVotes ==> r == Done(false, n)
    ensures !Admissible(o, n.consensus, v) ==> r == Done(false, n)
    ensures VoteId(v) !in n.seenVotes && HandleVote(o, n.consensus, v).Done? ==>
      r.Done? && r.value == HandleVote(o, n.consensus, v).value
    ensures VoteId(v) !in n.seenVotes && Admissible(o, n.consensus, v) ==> r.Raised? || r.value
    ensures r.Done? && r.value && NamesFinalizedHash(r.state.consensus, v) && v.blockHash in n.blocks ==>
      && r.state.state == n.state + Writes(o, BodyOf(n, v.blockHash), n.chainId)
      && r.state.currentHeight == (if n.currentHeight >= v.height then n.currentHeight else v.height)
    ensures !(r.Done? && r.value && NamesFinalizedHash(r.state.consensus, v) && v.blockHash in n.blocks) ==>
      r.state.state == n.state && r.state.currentHeight == n.currentHeight
    ensures r.state.nodeId == n.nodeId && r.state.genesis == n.genesis
    ensures r.state.consensus.validatorSet == n.consensus.validatorSet
    ensures r.state.consensus.chainId == n.consensus.chainId
    ensures r.Done? && !r.value ==> r.state == n
    ensures r.Done? && r.value ==> r.state.seenVotes == n.seenVotes + {VoteId(v)} && VoteId(v) !in n.seenVotes
    ensures !(r.Done? && r.value) ==> r.state.seenVotes == n.seenVotes
    ensures VoteId(v) !in n.seenVotes ==>
      && r.state.consensus == HandleVote(o, n.consensus, v).state
      && (r.Raised? <==> HandleVote(o, n.consensus, v).Raised?)
      && (r.Raised? ==> r.state == n.(consensus := r.state.consensus))
    ensures r.state.blocks == n.blocks && r.state.blockBodies == n.blockBodies
    ensures r.state.pendingTxs == n.pendingTxs && r.state.key == n.key && r.state.chainId == n.chainId
    ensures r.state.publicKey == n.publicKey
    ensures r.state.currentHeight >= n.currentHeight
    ensures r.Raised? ==> v.phase == Precommit && r.fault == SafetyViolation(v.height)
  {
    var id := VoteId(v);
    if id in n.seenVotes then Done(false, n)
    else
      match HandleVote(o, n.consensus, v)
      case Raised(f, cs) => Raised(f, n.(consensus := cs))
      case Done(accepted, cs) =>
        if !accepted then Done(false, n.(consensus := cs))
        else
          var n1 := n.(consensus := cs, seenVotes := n.seenVotes + {id});
          var fh := Get(cs.finalized, v.height);
          if Truthy(fh) && fh.value == v.blockHash then Done(true, FinalizeBlock(o, n1, v.height, fh.value))
          else Done(true, n1)
  }

  /** The ids of the votes of a run that pass the admission checks. */
  function AdmissibleIds(o: Oracle, validatorSet: set<string>, chainId: string, votes: seq<Vote>): set<string>
    decreases |votes|
  {
    if |votes| == 0 then {}
    else
      (if AdmissibleUnder(o, validatorSet, chainId, votes[0]) then {VoteId(votes[0])} else {})
      + AdmissibleIds(o, validatorSet, chainId, votes[1..])
  }

  /** How many votes of a run pass the admission checks with an id not seen
      before, counting ids accepted earlier in the run as seen. */
  function FreshAdmissibleCount(o: Oracle, validatorSet: set<string>, chainId: string, seen: set<string>, votes: seq<Vote>): nat
    decreases |votes|
  {
    if |votes| == 0 then 0
    else if AdmissibleUnder(o, validatorSet, chainId, votes[0]) && VoteId(votes[0]) !in seen then
      1 + FreshAdmissibleCount(o, validatorSet, chainId, seen + {VoteId(votes[0])}, votes[1..])
    else FreshAdmissibleCount(o, validatorSet, chainId, seen, votes[1..])
  }

  /** A vote whose hash the data already reflects leaves the data unchanged,
      whether or not it triggers a repeated finalisation: this is why a
      second vote for a block just finalised is harmless. */
  lemma ReceiveVoteKeepsReflectedState(o: Oracle, n: BlockchainNode, v: Vote)
    requires BodyReflected(o, n, v.blockHash)
    ensures ReceiveVote(o, n, v).state.state == n.state
  {
  }

  /** A run of `receive_vote` calls on one node, in order, ending early at
      the first exception. When no call raises, the accepted votes are those
      that pass the admission checks with an id not seen before, and the
      seen ids grow by exactly the ids of the admissible votes. */
  function ReceiveVotes(o: Oracle, n: BlockchainNode, votes: seq<Vote>): (r: Outcome<nat, BlockchainNode>)
    ensures r.state.consensus.validatorSet == n.consensus.validatorSet
    ensures r.state.consensus.chainId == n.consensus.chainId
    ensures r.Done? ==>
      r.value == FreshAdmissibleCount(o, n.consensus.validatorSet, n.consensus.chainId, n.seenVotes, votes)
    ensures r.Done? ==>
      r.state.seenVotes == n.seenVotes + AdmissibleIds(o, n.consensus.validatorSet, n.consensus.chainId, votes)
    decreases |votes|
  {
    if |votes| == 0 then Done(0, n)
    else
      match ReceiveVote(o, n, votes[0])
      case Raised(f, m) => Raised(f, m)
      case Done(accepted, m) =>
        match ReceiveVotes(o, m, votes[1..])
        case Raised(f, m') => Raised(f, m')
        case Done(k, m') => Done(k + (if accepted then 1 else 0), m')
  }

  /** Through any run of vote deliveries, a truthy finalised hash stays
      what it is and the node's height never decreases. */
  lemma {:induction false} ReceiveVotesKeepFinalizedAndHeight(o: Oracle, n: BlockchainNode, votes: seq<Vote>, h: int)
    requires Truthy(Get(n.consensus.finalized, h))
    ensures Get(ReceiveVotes(o, n, votes).state.consensus.finalized, h) == Get(n.consensus.finalized, h)
    ensures ReceiveVotes(o, n, votes).state.currentHeight >= n.currentHeight
    decreases |votes|
  {
    if |votes| > 0 {
      var first := ReceiveVote(o, n, votes[0]);
      if first.Done? {
        ReceiveVotesKeepFinalizedAndHeight(o, first.state, votes[1..], h);
      }
    }
  }

  /** An oracle under which every signature verifies and the headers of
      heights 1 and 2 hash to `"b1"` and `"b2"`. */
  function DemoOracle(): Oracle
  {
    Oracle((k: string) => k, (sk: string, m: Payload, ctx: string, cid: string) => "sig",
           (pk: string, sig: string, m: Payload, ctx: string, cid: string) => true,
           (p: Payload) => if p.HeaderPayload? && p.height == 1 then "b1"
                else if p.HeaderPayload? && p.height == 2 then "b2"
                else "root")
  }

  /** The precommit of the single validator `v` for block `bh` at `height`. */
  function DemoPrecommit(height: int, bh: string): Vote
  {
    Vote("v", height, bh, Precommit, "sig")
  }

  /** A single-validator node that, from its genesis block `root`, has
      finalised block `b1` (height 1, sets `v/k` to `"1"`) and then `b2`
      (height 2, sets `v/k` to `"2"`), each on the validator's precommit,
      whose ids it has seen. */
  function DemoNode(): BlockchainNode
  {
    var g := BlockHeader(NullHash, 0, "root", "genesis", "");
    var h1 := BlockHeader("root", 1, "root", "v", "sig");
    var h2 := BlockHeader("b1", 2, "root", "v", "sig");
    BlockchainNode(
      "n", NodeKey("v"), "v", "c",
      ConsensusState({"v"}, "c", map[],
                     map[1 := [DemoPrecommit(1, "b1")], 2 := [DemoPrecommit(2, "b2")]],
                     map[0 := "root", 1 := "b1", 2 := "b2"]),
      map["v/k" := "2"],
      map["root" := g, "b1" := h1, "b2" := h2],
      map["root" := [], "b1" := [Transaction("v", "v/k", "1", "s")], "b2" := [Transaction("v", "v/k", "2", "s")]],
      2,
      g,
      [],
      {VoteId(DemoPrecommit(1, "b1")), VoteId(DemoPrecommit(2, "b2"))})
  }

  /** As written, a late, not yet seen prevote for the block finalised at
      height 1 replays that block's body after block 2 has been applied:
      the data goes back to the height-1 value while the height stays 2. */
  lemma LateVoteRevertsLaterBlock(o: Oracle, n: BlockchainNode, v: Vote)
    requires o == DemoOracle() && n == DemoNode() && v == Vote("v", 1, "b1", Prevote, "sig")
    ensures Consistent(o, n) && n.state["v/k"] == "2" && n.genesis == GenesisHeader(o)
    ensures v.height < n.currentHeight
    ensures var r := ReceiveVote(o, n, v);
            r == Done(true, r.state) && r.state.currentHeight == 2 && r.state.state["v/k"] == "1"
  {
  }

  /** `receive_vote` finalising a block only on the vote that caused its
      finalisation, that is, when no truthy hash was finalised at the vote's
      height before the vote arrived. A later vote for an already finalised
      height can then no longer replay an older block over newer ones. In
      every other respect it is `ReceiveVote`; in particular a height
      finalised for the first time below the current height still has its
      body applied. */
  function ReceiveVoteGuarded(o: Oracle, n: BlockchainNode, v: Vote): (r: Outcome<bool, BlockchainNode>)
    ensures !Truthy(Get(n.consensus.finalized, v.height)) ==> r == ReceiveVote(o, n, v)
    ensures Truthy(Get(n.consensus.finalized, v.height)) ==>
      var u := ReceiveVote(o, n, v);
      r == (if u.Done? then Done(u.value, u.state.(state := n.state, currentHeight := n.currentHeight)) else u)
    ensures Truthy(Get(n.consensus.finalized, v.height)) ==>
      r.state.state == n.state && r.state.currentHeight == n.currentHeight
    ensures r.state.seenVotes == ReceiveVote(o, n, v).state.seenVotes
    ensures r.state.consensus == ReceiveVote(o, n, v).state.consensus
    ensures r.Raised? <==> ReceiveVote(o, n, v).Raised?
  {
    var id := VoteId(v);
    if id in n.seenVotes then Done(false, n)
    else
      match HandleVote(o, n.consensus, v)
      case Raised(f, cs) => Raised(f, n.(consensus := cs))
      case Done(accepted, cs) =>
        if !accepted then Done(false, n.(consensus := cs))
        else
          var n1 := n.(consensus := cs, seenVotes := n.seenVotes + {id});
          var fh := Get(cs.finalized, v.height);
          if Truthy(fh) && fh.value == v.blockHash && !Truthy(Get(n.consensus.finalized, v.height)) then
            Done(true, FinalizeBlock(o, n1, v.height, fh.value))
          else Done(true, n1)
  }

  /** With the guard, the same late vote is accepted and leaves the data at
      the height-2 value. */
  lemma GuardedLateVoteKeepsState(o: Oracle, n: BlockchainNode, v: Vote)
    requires o == DemoOracle() && n == DemoNode() && v == Vote("v", 1, "b1", Prevote, "sig")
    ensures var r := ReceiveVoteGuarded(o, n, v);
            r == Done(true, r.state) && r.state.state["v/k"] == "2"
  {
  }

  /** The guard does not hold back a first finalisation: on the same node
      with only height 2 finalised, the first precommit for `b1` at height 1
      finalises it and applies its body, as the unguarded receive does. */
  lemma GuardedFirstFinalizationApplies(o: Oracle, n: BlockchainNode, v: Vote)
    requires o == DemoOracle() && v == DemoPrecommit(1, "b1")
    requires n == DemoNode().(consensus := ConsensusState({"v"}, "c", map[], map[2 := [DemoPrecommit(2, "b2")]], map[0 := "root", 2 := "b2"]),
                              seenVotes := {VoteId(DemoPrecommit(2, "b2"))})
    ensures var r := ReceiveVoteGuarded(o, n, v);
            && r == ReceiveVote(o, n, v)
            && r == Done(true, r.state) && Get(r.state.consensus.finalized, 1) == Some("b1")
            && r.state.state["v/k"] == "1"
  {
    var cs := n.consensus;
    assert DecimalString(1) == "1" && DecimalString(2) == "2";
    assert VoteId(v)[2] != VoteId(DemoPrecommit(2, "b2"))[2];
    assert VoteId(v) !in n.seenVotes;
    assert Admissible(o, cs, v);
    assert |cs.validatorSet| == 1;
    assert Hashes([v]) == ["b1"];
    assert Count([v], "b1") == 1;
    assert MajorityHash([v], Majority(cs.validatorSet)) == Some("b1");
    assert VotesAt(cs.precommits, 1) + [v] == [v];
    var filed := cs.(precommits := cs.precommits[1 := [v]]);
    assert FileVote(cs.precommits, 1, v) == filed.precommits;
    var hv := HandleVote(o, cs, v);
    assert hv == Done(true, filed.(finalized := cs.finalized[1 := "b1"]));
    var tx := Transaction("v", "v/k", "1", "s");
    assert BodyOf(n, "b1") == [tx];
    assert "v" + "/" <= "v/k";
    assert TxValid(o, tx, n.chainId);
    assert [tx][1..] == [];
    assert Writes(o, [tx], n.chainId) == map["v/k" := "1"] + map[];
  }

  /** Receiving a vote keeps a consistent node consistent. */
  lemma ReceiveVoteKeepsConsistent(o: Oracle, n: BlockchainNode, v: Vote)
    requires Consistent(o, n)
    ensures Consistent(o, ReceiveVote(o, n, v).state)
  {
  }

  /** Proposing keeps a consistent node consistent. */
  lemma ProposeBlockKeepsConsistent(o: Oracle, n: BlockchainNode, parentHash: string)
    requires Consistent(o, n)
    ensures Consistent(o, ProposeBlock(o, n, parentHash).node)
  {
  }

  /** Receiving a block keeps a consistent node consistent. */
  lemma ReceiveBlockKeepsConsistent(o: Oracle, n: BlockchainNode, header: BlockHeader, txs: seq<Transaction>)
    requires Consistent(o, n)
    ensures Consistent(o, ReceiveBlock(o, n, header, txs).node)
  {
  }

  /** A non-empty set of heights has an element. */
  lemma HasElement(s: set<int>)
    requires s != {}
    ensures exists y :: y in s
  {
    if forall y :: y !in s {
      assert false;
    }
  }

  /** The least element of a non-empty set of heights exists. */
  lemma {:induction false} LeastExists(s: set<int>)
    requires s != {}
    ensures exists m :: m in s && forall x :: x in s ==> m <= x
    decreases |s|
  {
    HasElement(s);
    var y :| y in s;
    var rest := s - {y};
    if rest != {} {
      LeastExists(rest);
      var m :| m in rest && forall x :: x in rest ==> m <= x;
      var least := if y < m then y else m;
      forall x | x in s
        ensures least <= x
      {
        if x != y {
          assert x in rest;
        }
      }
      assert least in s;
    } else {
      forall x | x in s
        ensures y <= x
      {
        assert x !in rest;
      }
    }
  }

  /** The least element of a non-empty set of heights. */
  function Least(s: set<int>): (m: int)
    requires s != {}
    ensures m in s && forall x :: x in s ==> m <= x
  {
    LeastExists(s);
    var m :| m in s && forall x :: x in s ==> m <= x;
    m
  }

  /** `sorted(heights)` for a set of distinct heights: ascending, and the
      same heights. */
  function SortedHeights(s: set<int>): (r: seq<int>)
    ensures forall i, j :: 0 <= i < j < |r| ==> r[i] < r[j]
    ensures forall x :: x in s <==> x in r
    ensures |r| == |s|
    decreases |s|
  {
    if s == {} then []
    else
      var m := Least(s);
      [m] + SortedHeights(s - {m})
  }

  /** The values of `m` at the keys `hs`, in the order of `hs`. */
  function LookupAll(m: map<int, string>, hs: seq<int>): (r: seq<string>)
    requires forall i :: 0 <= i < |hs| ==> hs[i] in m
    ensures |r| == |hs|
    ensures forall i :: 0 <= i < |hs| ==> r[i] == m[hs[i]]
  {
    seq(|hs|, i requires 0 <= i < |hs| => m[hs[i]])
  }

  /** `get_finalized_block_hashes`: the finalised hashes, one per finalised
      height, in ascending height order. */
  function GetFinalizedBlockHashes(n: BlockchainNode): (r: seq<string>)
    ensures |r| == |n.consensus.finalized|
    ensures forall h :: h in n.consensus.finalized ==> n.consensus.finalized[h] in r
    ensures forall i :: 0 <= i < |r| ==> r[i] == n.consensus.finalized[SortedHeights(n.consensus.finalized.Keys)[i]]
  {
    var m := n.consensus.finalized;
    var hs := SortedHeights(m.Keys);
    assert |hs| == |m.Keys| == |m|;
    var r := LookupAll(m, hs);
    assert forall h :: h in m ==> m[h] in r by {
      forall h | h in m
        ensures m[h] in r
      {
        var i :| 0 <= i < |hs| && hs[i] == h;
        assert r[i] == m[h];
      }
    }
    r
  }
}
